=== FILE: README.md ===
# Playlist track maintenance, modelled in Dafny

This project models the playlist-track core of the TIDAL playlist service.
A playlist holds an ordered collection of entries (`PlaylistTrack`), each
wrapping one track at a zero-based position `index`. It also keeps a cached
count `nrOfTracks` and a cached running `duration`. Two batch operations
change it:

- `addTracks` checks its arguments, the playlist's existence, the capacity
  ceiling of 500 and the clamped insertion position. It then inserts the new
  tracks as one run in caller order, renumbers every entry `0..n-1`, and
  updates the count and the duration.
- `removeTracks` checks every requested position against `0..nrOfTracks`
  before changing anything. It then drops the entries at those positions,
  subtracts their durations, renumbers the survivors in their old order and
  returns them.

Both `PlaylistServiceImpl` and the older `PlaylistService` are modelled. The
older one has the same add, except that it tests the uuid with `isEmpty`
rather than `isBlank`, and its remove is a stub.

Modules:

- `Wrappers`, `JavaInt`, `TrackData` hold the supporting values:
  - `Option` stands for a nullable reference and `Result` for a thrown exception;
  - Java's `int` and `long` are modelled as ranges, with the wrap-around of `int` arithmetic written out;
  - a track is an immutable value.
- `PlaylistTracks` models the entry class. It is a Dafny class with the
  source's fields and has `SetIndex`, `CompareTo`, `Equals` and `HashCode`.
  Its value at one moment is the datatype `Entry`.
- `Positions` is the value-level specification: renumbering, batch
  insertion, removal by position (`Kept`/`Dropped`) and the exact duration
  total, with the lemmas that relate them.
- `Playlists` models the playlist as a class. Its `tracks` field is a sequence
  of entry objects in index order; `nrOfTracks` and `duration` are the other
  fields.
  - `Valid()` is the class invariant: the count equals the number of entries,
    and their indices are exactly `0..n-1` in order. Under it, the source's
    `Collections.sort` and `TreeSet` leave the order unchanged.
  - The methods are the mutating steps of the two operations: the insertion
    loop, the renumbering loop, and the filter and removal loop. Each is
    proved against the functions of `Positions`.
- `Checks` models the argument checks (`isBlank`, `isEmpty`,
  `CollectionUtils.isEmpty`) and the error kinds.
- `PlaylistServiceImpl` and `PlaylistService` are the two services. The
  repository lookup is the input `lookup` (`None` when no playlist has the
  uuid), and the clock reading is the input `now`.
- `TreeSetCollapse` works on values. It models what `removeTracks` does when
  two entries share an index, which `Valid()` excludes (see Findings).

Behaviour worth noting:

- The lookup does not check the playlist's `deleted` flag.
- After a removal, the count is the number of survivors taken before the
  `TreeSet` is built (`PlaylistServiceImpl.java:147`).
- A uuid check comes first, before the list check. In the older service that
  uuid check is `isEmpty`.

## Model

| member | source | states |
|---|---|---|
| `JavaInt.Wrap32` | src/main/java/com/tidal/refactoring/playlist/data/PlaylistTrack.java:69 | Java's 32-bit result agrees with the exact value modulo 2^32, and equals it when the exact value fits in an `int` |
| `PlaylistTracks.Compare` | src/main/java/com/tidal/refactoring/playlist/data/PlaylistTrack.java:68-70 | when the index difference does not overflow, the result is negative, zero or positive exactly as the first index is below, equal to or above the second |
| `PlaylistTracks.PlaylistTrack.CompareTo` | src/main/java/com/tidal/refactoring/playlist/data/PlaylistTrack.java:68-70 | for non-negative indices (every playlist position), `compareTo` orders entries exactly by index |
| `PlaylistTracks.CompareAntisymmetric` | src/main/java/com/tidal/refactoring/playlist/data/PlaylistTrack.java:68-70 | for non-negative indices, `sign(a.compareTo(b)) == -sign(b.compareTo(a))` |
| `PlaylistTracks.CompareOverflows` | src/main/java/com/tidal/refactoring/playlist/data/PlaylistTrack.java:68-70 | outside that range the subtraction wraps: `MIN_VALUE` and `0` each compare below the other, and `MIN_VALUE` compares above `1` |
| `PlaylistTracks.PlaylistTrack.constructor` | src/main/java/com/tidal/refactoring/playlist/data/PlaylistTrack.java:16-18 | a fresh entry has a non-null `dateAdded` (the current date); its other fields are defaults |
| `PlaylistTracks.PlaylistTrack.Build` | src/main/java/com/tidal/refactoring/playlist/PlaylistServiceImpl.java:69-75 | a new entry carries the track, the track's id and the date, with no id and index 0 |
| `PlaylistTracks.PlaylistTrack.SetIndex` | src/main/java/com/tidal/refactoring/playlist/data/PlaylistTrack.java:52-58 | `setIndex` changes only `index`, and `getIndex` then reads back the value set |
| `PlaylistTracks.PlaylistTrack.Equals` | src/main/java/com/tidal/refactoring/playlist/data/PlaylistTrack.java:72-84 | every entry equals itself; otherwise an entry equals exactly the objects of its own class whose value differs from its own at most in the track, so `null` and other classes are never equal |
| `PlaylistTracks.PlaylistTrack.HashCode` | src/main/java/com/tidal/refactoring/playlist/data/PlaylistTrack.java:86-93 | the 32-bit hash agrees modulo 2^32 with the exact polynomial `31^3 id + 31^2 index + 31 dateHash + trackId`, a null `id` or `dateAdded` counting as 0 |
| `PlaylistTracks.EqualsIffKeyFields` | src/main/java/com/tidal/refactoring/playlist/data/PlaylistTrack.java:77-82 | two entries are equal exactly when `index`, `trackId`, `dateAdded` and `id` all match (null-aware); the track is not compared |
| `PlaylistTracks.EqualsDependsOnIndex` | src/main/java/com/tidal/refactoring/playlist/data/PlaylistTrack.java:79 | entries at different indices are never equal, so re-indexing can break equality |
| `PlaylistTracks.HashCodeConsistentWithEquals` | src/main/java/com/tidal/refactoring/playlist/data/PlaylistTrack.java:86-93 | equal entries have equal hash codes |
| `Positions.Renumbered` | src/main/java/com/tidal/refactoring/playlist/PlaylistServiceImpl.java:84-87 | after renumbering, positions are exactly `0..n-1` and every entry is otherwise unchanged |
| `Positions.NewEntries` | src/main/java/com/tidal/refactoring/playlist/PlaylistServiceImpl.java:68-75 | the batch becomes one new entry per track, in caller order, each holding its track and the track's id |
| `Positions.InsertedLayout` | src/main/java/com/tidal/refactoring/playlist/PlaylistServiceImpl.java:78-87 | after an add, entries before the insertion point keep their positions, the k-th new entry is at `at + k`, and the later old entries move up by the batch size in their old order |
| `Positions.BatchLanded` | src/main/java/com/tidal/refactoring/playlist/PlaylistServiceImpl.java:78-80 | after an add, the k-th track of the batch sits at position `at + k` |
| `Positions.KeptMembership` | src/main/java/com/tidal/refactoring/playlist/PlaylistServiceImpl.java:122-134 | exactly the entries whose index is requested are removed, and every other entry survives |
| `Positions.KeptDroppedPartition` | src/main/java/com/tidal/refactoring/playlist/PlaylistServiceImpl.java:122-134 | survivors and removed entries together are the old entries, as a multiset and in number |
| `Positions.KeptIgnoresUnmatched` | src/main/java/com/tidal/refactoring/playlist/PlaylistServiceImpl.java:122-125 | a requested position that no entry holds removes nothing |
| `Positions.CountRequestMatchesNothing` | src/main/java/com/tidal/refactoring/playlist/PlaylistServiceImpl.java:112-125 | the count itself passes the index check but names no entry, so requesting it changes nothing |
| `Positions.KeptIncreasing` | src/main/java/com/tidal/refactoring/playlist/PlaylistServiceImpl.java:137-143 | the survivors keep their prior relative order |
| `Positions.DurationSplit` | src/main/java/com/tidal/refactoring/playlist/PlaylistServiceImpl.java:127-134 | the old total is the survivors' total plus the removed entries' total |
| `Positions.NewEntriesDuration` | src/main/java/com/tidal/refactoring/playlist/PlaylistServiceImpl.java:77 | the new entries carry exactly their tracks' durations |
| `Positions.InsertedDuration` | src/main/java/com/tidal/refactoring/playlist/PlaylistServiceImpl.java:78 | splicing a batch in adds exactly the batch's total to the total |
| `Positions.AddDuration` | src/main/java/com/tidal/refactoring/playlist/PlaylistServiceImpl.java:77-87 | after an add, the entries' total is the old total plus the sum of the added tracks' durations |
| `Positions.KeptAfterInsert` | src/main/java/com/tidal/refactoring/playlist/PlaylistServiceImpl.java:122-125 | after an add, requesting the batch's positions removes exactly the new entries |
| `Positions.AddThenRemoveRestores` | src/main/java/com/tidal/refactoring/playlist/PlaylistServiceImpl.java:30-151 | removing the positions a batch was just added at gives back the playlist's entries as they were |
| `Playlists.AddTrackDuration` | src/main/java/com/tidal/refactoring/playlist/PlaylistServiceImpl.java:157-160 | the new total is the old total plus the track's duration, with a null total or track read as 0 (the older service's copy, `PlaylistService.java:108-111`, is identical) |
| `Playlists.RemoveTrackDuration` | src/main/java/com/tidal/refactoring/playlist/PlaylistServiceImpl.java:162-165 | the new total is the old total minus the track's duration, with a null total or track read as 0 |
| `Playlists.AfterAdding` | src/main/java/com/tidal/refactoring/playlist/PlaylistServiceImpl.java:67-81 | after the insertion loop, the total (null read as 0) has grown by exactly the batch's durations; it is still null only if it was null and the batch is empty |
| `Playlists.AfterRemoving` | src/main/java/com/tidal/refactoring/playlist/PlaylistServiceImpl.java:127-134 | after the removal loop, the total has dropped by exactly the removed entries' durations; it is still null only if it was null and nothing was removed |
| `Playlists.AddedLanded` | src/main/java/com/tidal/refactoring/playlist/PlaylistServiceImpl.java:78-92 | the returned new entry objects sit at `at`, `at + 1`, ... and hold the batch's tracks in caller order |
| `Playlists.Matching` | src/main/java/com/tidal/refactoring/playlist/PlaylistServiceImpl.java:122-125 | the filter selects, in order, exactly the entries whose index is requested |
| `Playlists.WithoutByIndex` | src/main/java/com/tidal/refactoring/playlist/PlaylistServiceImpl.java:127-129 | removing the selected objects leaves exactly the entries whose index is not requested |
| `Playlists.Renumber` | src/main/java/com/tidal/refactoring/playlist/PlaylistServiceImpl.java:84-87 | the renumbering loop gives each entry its sequence position as index and changes nothing else |
| `Playlists.Playlist.constructor` | src/main/java/com/tidal/refactoring/playlist/data/Playlist.java:24-30 | a new playlist has no entries, count 0 and a null duration, and satisfies the invariants |
| `Playlists.Playlist.SpliceBatch` | src/main/java/com/tidal/refactoring/playlist/PlaylistServiceImpl.java:66-81 | the insertion loop puts one fresh entry per track, in caller order, as one run at `at` in a copy of the entries, and adds each duration to the total |
| `Playlists.Playlist.Splice` | src/main/java/com/tidal/refactoring/playlist/PlaylistServiceImpl.java:62-81 | the spliced copy holds the old values with the batch at `at`; its objects are distinct, and each is an old entry or a new one |
| `Playlists.Playlist.Commit` | src/main/java/com/tidal/refactoring/playlist/PlaylistServiceImpl.java:83-91 | the renumbered copy becomes the entries, with its count; the batch lands from `at` onward, and the entries' total grows by the batch's durations |
| `Playlists.Playlist.InsertTracks` | src/main/java/com/tidal/refactoring/playlist/PlaylistServiceImpl.java:61-92 | the update step of an add. Afterwards the invariant holds, and the playlist holds its old entry objects with the fresh batch spliced in at `at`. They are renumbered in place, so their values are the old ones with the batch inserted at `at`, renumbered. The returned new entries are fresh, sit at `at + k` in caller order, and the duration grows by their total. A duration consistent with the entries stays consistent |
| `Playlists.Playlist.Select` | src/main/java/com/tidal/refactoring/playlist/PlaylistServiceImpl.java:119-134 | the filter and removal loop leave exactly the survivors, in their old order and with their old values, and subtract the removed durations |
| `Playlists.Playlist.DropAll` | src/main/java/com/tidal/refactoring/playlist/PlaylistServiceImpl.java:127-134 | each given entry leaves the collection and its duration is subtracted from the total |
| `Playlists.Playlist.Install` | src/main/java/com/tidal/refactoring/playlist/PlaylistServiceImpl.java:139-147 | the survivors are renumbered in their order and stored with their count; the total of their durations is unchanged |
| `Playlists.Playlist.RemoveAt` | src/main/java/com/tidal/refactoring/playlist/PlaylistServiceImpl.java:119-150 | the update step of a remove. Afterwards the invariant holds and the entries are exactly the unrequested old ones, in their old order, renumbered. The removed entries keep their values. The result is the remaining entries, and the duration drops by the removed total. A duration consistent with the entries stays consistent |
| `PlaylistServiceImpl.IsValidIndex` | src/main/java/com/tidal/refactoring/playlist/PlaylistServiceImpl.java:153-155 | a position passes exactly when it is that of an existing entry or the one just past the last; no position passes for a negative length |
| `PlaylistServiceImpl.CheckAdd` | src/main/java/com/tidal/refactoring/playlist/PlaylistServiceImpl.java:33-59 | a validation error exactly when the uuid is blank or the batch empty; otherwise a missing playlist is not-found; otherwise exceeding 500 is a capacity error. `-1` or a position above the count becomes the count, and the index error happens exactly when the position is below `-1` (or the count is negative). On success, the position is in `0..count` |
| `PlaylistServiceImpl.CheckRemove` | src/main/java/com/tidal/refactoring/playlist/PlaylistServiceImpl.java:99-117 | a blank uuid or an empty list is a validation error; otherwise a missing playlist is not-found. Otherwise the call fails exactly when some requested position is outside `0..count`, and passes exactly when all are inside |
| `PlaylistServiceImpl.AddTracks` | src/main/java/com/tidal/refactoring/playlist/PlaylistServiceImpl.java:30-93 | on a failed check, the error is returned and the playlist is unchanged. On success, the playlist holds its old entry objects with the returned new ones spliced in at the checked position, and everything is renumbered in place. The count grows by the batch size, the returned entries are the new ones in caller order at `at + k`, and the duration grows by their total |
| `PlaylistServiceImpl.RemoveTracks` | src/main/java/com/tidal/refactoring/playlist/PlaylistServiceImpl.java:96-151 | on a failed check, the error is returned and the playlist is unchanged. On success, exactly the requested positions are gone, the survivors are renumbered in their old order, and the count is their number. On such a valid playlist the as-written removal `TreeSetCollapse.RemoveAsWritten` and the corrected one `TreeSetCollapse.RemoveCorrected` both give this outcome. The survivors are the old entry objects, renumbered in place, and the removed entries keep their values. The result is the survivors, and the duration drops by the removed total |
| `PlaylistService.ValidateIndexes` | src/main/java/com/tidal/refactoring/playlist/PlaylistService.java:104-106 | the older service's position test accepts exactly the positions `isValidIndex` accepts |
| `PlaylistService.CheckAdd` | src/main/java/com/tidal/refactoring/playlist/PlaylistService.java:33-57 | the older service's checks: a validation error exactly when the uuid is empty or the batch empty, then not-found, then capacity, then the same clamp, with the index error exactly when the position is below `-1` (or the count is negative) |
| `PlaylistService.AgreesWithImpl` | src/main/java/com/tidal/refactoring/playlist/PlaylistService.java:33-36 | the two services decide an add alike for every uuid that is not blank; a non-empty, whitespace-only uuid is a validation error in the newer service only |
| `PlaylistService.AddTracks` | src/main/java/com/tidal/refactoring/playlist/PlaylistService.java:30-88 | the older `addTracks`, with the same outcome as the newer one for every check result: on success, the old entry objects are kept and renumbered in place around the returned new ones |
| `PlaylistService.RemoveTracks` | src/main/java/com/tidal/refactoring/playlist/PlaylistService.java:98-102 | the stub returns the empty list and changes nothing |
| `TreeSetCollapse.Collapse` | src/main/java/com/tidal/refactoring/playlist/PlaylistServiceImpl.java:137 | building the index-ordered set keeps at most one entry per index, keeps an entry for every index present, never adds an entry, and never grows |
| `TreeSetCollapse.CollapseKeepsAllIffDistinct` | src/main/java/com/tidal/refactoring/playlist/PlaylistServiceImpl.java:137 | the set loses no entry exactly when the entries' indices are distinct |
| `TreeSetCollapse.RemoveAsWritten` | src/main/java/com/tidal/refactoring/playlist/PlaylistServiceImpl.java:119-147 | `removeTracks` as written stores no more entries than the count it records (the number of survivors); what it stores is numbered `0..n-1`, and each stored entry is an unrequested old entry with possibly a new index; which survivors are kept is stated by `TreeSetCollapse.AsWrittenKeepsEveryIndex` |
| `TreeSetCollapse.AsWrittenKeepsEveryIndex` | src/main/java/com/tidal/refactoring/playlist/PlaylistServiceImpl.java:137-143 | for every survivor of `removeTracks` as written, a stored entry is an old entry at that survivor's index, renumbered: only entries that share an index with another survivor are lost |
| `TreeSetCollapse.AsWrittenAgreesOnDistinct` | src/main/java/com/tidal/refactoring/playlist/PlaylistServiceImpl.java:137-147 | on a valid playlist (strictly increasing indices), the stored entries are all the survivors in their old order, renumbered, and the count matches them |
| `TreeSetCollapse.AsWrittenLosesEntry` | src/main/java/com/tidal/refactoring/playlist/PlaylistServiceImpl.java:137-147 | two entries at index 0 and a request for index 1: the count recorded is 2 but one entry is stored |
| `TreeSetCollapse.RemoveCorrected` | src/main/java/com/tidal/refactoring/playlist/PlaylistServiceImpl.java:137-147 | keeping every survivor and renumbering before building anything from the indices: the stored entries are the renumbered survivors and the count is their number, for any entries |

## Left out

- The playlist repository is not modelled. Its lookup is the input `lookup`. The model does not say whether the caller persists the playlist afterwards.
- `BusinessUtils.currentDate()` and `new Date()` are modelled as one input `now` per call. The source reads the clock once per new entry, so entries of one batch may carry different dates there.
- `Date` is reduced to its millisecond timestamp. Its `hashCode` is written out; `Integer.hashCode` is the value itself.
- Float arithmetic on `duration` is not modelled. Durations are exact integers, and the duration properties are stated as exact sums; float rounding is not modelled.
- Only the counts and stored entries of the `HashSet` and `TreeSet` are modelled, not their hashing. The playlist's entries are a sequence in index order. Under `Valid()` this is also the order `Collections.sort` and the `TreeSet` produce. The iteration order of the `HashSet` that removal walks is taken to be index order.
- PlaylistServiceImpl.CheckAdd does not model the 32-bit wrap-around of `nrOfTracks + tracksToAdd.size()` (`PlaylistServiceImpl.java:46`). The model's sum is exact, so it rejects every add whose true total exceeds 500. Java's wrapped sum turns negative, and so passes the check, once `nrOfTracks + tracksToAdd.size()` exceeds 2^31 - 1. For example, a batch of 2^31 - 1 tracks added to a playlist of one entry passes in Java but is a capacity error in the model.
- PlaylistService.CheckAdd does not model the same wrap-around of its capacity sum (`PlaylistService.java:44`); the model rejects every add whose exact total exceeds 500, where Java lets through an add whose wrapped sum is negative.
- TreeSetCollapse.Collapse keeps the first entry per index in the order given. It does not model the ascending order the `TreeSet` iterates in when indices are out of order.
- Null elements inside the `tracksToAdd` or `indexes` lists are not modelled: the source would throw a `NullPointerException`. Neither is a null entry set on the playlist, which the removal's stream would dereference.
- The entry's back-reference to its playlist (`setPlaylist`) is not modelled, and neither are the playlist's name, uuid, id, dates and `deleted` flag. The core does not read them.
- Lombok builders, getters and setters other than `setIndex`/`getIndex`, exception message strings and the `interfaces/PlaylistService` declaration are left out. They carry no behaviour of the core. `PlaylistTrack.builder()` is called by both services but is not declared in `data/PlaylistTrack.java`. `PlaylistTracks.PlaylistTrack.Build` sets exactly the fields those calls name.
- PlaylistServiceImpl.AddTracks and PlaylistService.AddTracks require `Valid()` of the playlist found. Playlists whose indices have drifted from `0..n-1` or repeat, or whose count differs from the number of entries, are therefore excluded, such as the repository's own add tests set up (two entries at index 0 with `nrOfTracks(2)`, `src/test/java/com/tidal/refactoring/playlist/PlaylistServiceImplTest.java:132-192`). The source sorts and renumbers such a playlist while adding; that repair is not modelled, and its clamp against `nrOfTracks` and its insertion into the actual list can disagree.
- PlaylistServiceImpl.RemoveTracks requires `Valid()` of the playlist found. This excludes playlists whose entries share an index or whose count differs from the number of entries, such as the one the repository's own remove test builds (two entries at index 0 with `nrOfTracks(1)`, `src/test/java/com/tidal/refactoring/playlist/PlaylistServiceImplTest.java:545-604`). On such playlists, the removal is modelled only on values, by `TreeSetCollapse.RemoveAsWritten`.

## Findings

| source | as written | input that shows it | evidently intended | confidence | as-written member | corrected member |
|---|---|---|---|---|---|---|
| src/main/java/com/tidal/refactoring/playlist/PlaylistServiceImpl.java:137-147 | the survivors are sorted into a `TreeSet` ordered by `compareTo`, which keeps one entry per index; `nrOfTracks` is then set from the survivors' number before that collapse | two entries both at index 0 (as the entry builder leaves them) and a request to remove index 1: `nrOfTracks` becomes 2 while one entry is stored and returned | every survivor is kept in its prior order and renumbered, and the count equals the number of entries stored | low: needs two entries at one index, which a playlist built only through these two operations never holds; not executed | `TreeSetCollapse.AsWrittenLosesEntry` | `TreeSetCollapse.RemoveCorrected` |

=== FILE: checks.dfy ===
/**
 * The argument checks both services run before looking anything up, and the
 * errors they raise. `null` arguments are `None`.
 */
module Checks {
  import opened Wrappers

  /** The failures of the two playlist operations. */
  datatype Error =
    | Validation        // a null, empty or blank argument
    | NotFound          // no playlist under the uuid
    | CapacityExceeded  // the add would take the playlist past its maximum size
    | IndexOutOfBounds  // a position outside 0..nrOfTracks

  /** `Character.isWhitespace`: the Unicode space, line and paragraph separators other than the no-break spaces, and the ASCII controls TAB, LF, VT, FF, CR and FS, GS, RS, US. */
  predicate IsWhitespace(c: char) {
    || ('\t' <= c <= '\r')
    || ('\U{1C}' <= c <= '\U{1F}')
    || c == ' '
    || c == '\U{1680}'
    || ('\U{2000}' <= c <= '\U{2006}')
    || ('\U{2008}' <= c <= '\U{200A}')
    || c == '\U{2028}' || c == '\U{2029}'
    || c == '\U{205F}' || c == '\U{3000}'
  }

  /** `StringUtils.isEmpty`: null or of length zero. */
  predicate IsEmptyString(s: Option<string>) {
    s.None? || s.value == []
  }

  /** `StringUtils.isBlank`: null, empty, or whitespace only. */
  predicate IsBlank(s: Option<string>) {
    s.None? || forall k :: 0 <= k < |s.value| ==> IsWhitespace(s.value[k])
  }

  /** `CollectionUtils.isEmpty`: null or without elements. */
  predicate IsEmptyList<T>(xs: Option<seq<T>>) {
    xs.None? || xs.value == []
  }
}

=== FILE: collapse.dfy ===
/**
 * What `removeTracks` does when two entries share an index, a state the
 * playlist invariant rules out but the entries themselves do not: the
 * survivors go through a `TreeSet` ordered by `compareTo`, which keeps one
 * entry per index, while the count is taken from the survivors before that.
 */
module TreeSetCollapse {
  import opened Wrappers
  import opened PlaylistTracks
  import opened Positions

  /** Some entry of `s` has position `i`. */
  predicate HasIndex(s: seq<Entry>, i: int) {
    exists k :: 0 <= k < |s| && s[k].index == i
  }

  /** No two entries share a position. */
  ghost predicate DistinctIndices(s: seq<Entry>) {
    forall i, j :: 0 <= i < j < |s| ==> s[i].index != s[j].index
  }

  /**
   * Adding the entries one by one to a set ordered by index: an entry whose
   * index is already present compares equal to one inside and is not added.
   * (The set's ascending iteration order is not modelled; on entries already
   * in ascending index order it is their own order.)
   */
  function Collapse(s: seq<Entry>): (r: seq<Entry>)
    ensures |r| <= |s|
    ensures forall e :: e in r ==> e in s
    ensures DistinctIndices(r)
    ensures forall i :: HasIndex(s, i) ==> HasIndex(r, i)
  {
    if s == [] then []
    else
      var init, last := s[..|s| - 1], s[|s| - 1];
      var c := Collapse(init);
      assert forall i :: HasIndex(s, i) ==> HasIndex(init, i) || i == last.index by {
        forall i | HasIndex(s, i) ensures HasIndex(init, i) || i == last.index {
          var k :| 0 <= k < |s| && s[k].index == i;
          if k < |s| - 1 {
            assert init[k] == s[k];
          }
        }
      }
      if HasIndex(init, last.index) then c
      else
        assert forall k :: 0 <= k < |c| ==> c[k].index != last.index by {
          forall k | 0 <= k < |c| ensures c[k].index != last.index {
            assert c[k] in init;
          }
        }
        var r := c + [last];
        assert forall i :: HasIndex(s, i) ==> HasIndex(r, i) by {
          forall i | HasIndex(s, i) ensures HasIndex(r, i) {
            if i == last.index {
              assert r[|c|].index == i;
            } else {
              var k :| 0 <= k < |c| && c[k].index == i;
              assert r[k] == c[k];
            }
          }
        }
        r
  }

  /** Entries with distinct positions all survive the set; conversely, if none is lost, their positions were distinct. */
  lemma {:induction false} CollapseKeepsAllIffDistinct(s: seq<Entry>)
    ensures DistinctIndices(s) ==> Collapse(s) == s
    ensures |Collapse(s)| == |s| ==> DistinctIndices(s)
  {
    if s != [] {
      var init, last := s[..|s| - 1], s[|s| - 1];
      CollapseKeepsAllIffDistinct(init);
      assert s == init + [last];
      if DistinctIndices(s) {
        assert !HasIndex(init, last.index);
      }
      if |Collapse(s)| == |s| {
        assert !HasIndex(init, last.index);
        forall i, j | 0 <= i < j < |s| ensures s[i].index != s[j].index {
          if j == |s| - 1 {
            assert init[i].index == s[i].index;
          } else {
            assert init[i] == s[i] && init[j] == s[j];
          }
        }
      }
    }
  }

  /** What a removal records and what it stores. */
  datatype Outcome = Outcome(nrOfTracks: int, stored: seq<Entry>)

  /**
   * `removeTracks` as written, on the entries' values: the survivors are the
   * entries whose index is not requested; the set ordered by index is built
   * from them and renumbered from 0 in its iteration order, and that is what
   * is stored; the count is the survivors' number.
   */
  function RemoveAsWritten(s: seq<Entry>, requested: seq<int>): (r: Outcome)
    ensures |r.stored| <= r.nrOfTracks == |Kept(s, requested)|
    ensures Contiguous(r.stored)
    ensures forall k :: 0 <= k < |r.stored| ==>
      exists e :: e in s && e.index !in requested && SameButIndex(r.stored[k], e)
  {
    KeptMembership(s, requested);
    var survivors := Kept(s, requested);
    var c := Collapse(survivors);
    var stored := Renumbered(c);
    assert forall k :: 0 <= k < |stored| ==>
      exists e :: e in s && e.index !in requested && SameButIndex(stored[k], e) by {
      forall k | 0 <= k < |stored|
        ensures exists e :: e in s && e.index !in requested && SameButIndex(stored[k], e)
      {
        assert c[k] in survivors;
        assert SameButIndex(stored[k], c[k]);
      }
    }
    Outcome(|survivors|, stored)
  }

  /** With distinct positions, as every valid playlist has, nothing is lost: the survivors are stored in order and renumbered, and the count agrees. */
  lemma AsWrittenAgreesOnDistinct(s: seq<Entry>, requested: seq<int>)
    requires Increasing(s)
    ensures RemoveAsWritten(s, requested).stored == Renumbered(Kept(s, requested))
    ensures |RemoveAsWritten(s, requested).stored| == RemoveAsWritten(s, requested).nrOfTracks
  {
    KeptIncreasing(s, requested);
    CollapseKeepsAllIffDistinct(Kept(s, requested));
  }

  /**
   * Only entries sharing an index are lost: for every survivor, some stored
   * entry is an old entry at that survivor's index, renumbered.
   */
  lemma AsWrittenKeepsEveryIndex(s: seq<Entry>, requested: seq<int>, e: Entry)
    requires e in s && e.index !in requested
    ensures var stored := RemoveAsWritten(s, requested).stored;
      exists k :: 0 <= k < |stored| && (exists e' :: e' in s && e'.index == e.index && SameButIndex(stored[k], e'))
  {
    KeptMembership(s, requested);
    var survivors := Kept(s, requested);
    var c := Collapse(survivors);
    var stored := RemoveAsWritten(s, requested).stored;
    assert stored == Renumbered(c);
    assert e in survivors;
    var j :| 0 <= j < |survivors| && survivors[j] == e;
    assert HasIndex(survivors, e.index);
    var k :| 0 <= k < |c| && c[k].index == e.index;
    assert c[k] in survivors;
    assert SameButIndex(stored[k], c[k]);
  }

  /**
   * Two entries both at index 0 (as the entry builder leaves them), and a
   * request for index 1 that matches neither: both survive and the count
   * is 2, but the ordered set keeps only the first.
   */
  lemma AsWrittenLosesEntry()
    ensures var a, b := Entry(Some(1), 0, None, 1, None), Entry(Some(2), 0, None, 2, None);
      RemoveAsWritten([a, b], [1]) == Outcome(2, [a])
  {
    var a, b := Entry(Some(1), 0, None, 1, None), Entry(Some(2), 0, None, 2, None);
    var s := [a, b];
    assert s[..1] == [a] && [a][..0] == [];
    assert 0 !in [1];
    assert Kept([a], [1]) == [a];
    assert Kept(s, [1]) == s;
    assert Collapse([a]) == [a];
    assert HasIndex([a], b.index) by {
      assert [a][0].index == b.index;
    }
    assert Collapse(s) == [a];
    assert Renumbered([a]) == [a];
  }

  /**
   * The evidently intended removal: every survivor is kept, in its prior
   * order, and renumbered before anything is built from the positions, so
   * the count is the number of entries stored. This is the removal `Playlist.RemoveAt` performs.
   */
  function RemoveCorrected(s: seq<Entry>, requested: seq<int>): (r: Outcome)
    ensures r.stored == Renumbered(Kept(s, requested))
    ensures |r.stored| == r.nrOfTracks
  {
    var survivors := Renumbered(Kept(s, requested));
    CollapseKeepsAllIffDistinct(survivors);
    Outcome(|survivors|, Collapse(survivors))
  }
}

=== FILE: java_int.dfy ===
/** Java's fixed-width integers and their wrap-around arithmetic. */
module JavaInt {

  const MinInt: int := -0x8000_0000
  const MaxInt: int := 0x7FFF_FFFF

  /** Java `int`. */
  newtype int32 = x: int | -0x8000_0000 <= x < 0x8000_0000

  /** Java `long`. */
  newtype int64 = x: int | -0x8000_0000_0000_0000 <= x < 0x8000_0000_0000_0000

  /** The value Java's 32-bit two's-complement arithmetic yields for the exact result `x`. */
  function Wrap32(x: int): (r: int32)
    ensures (r as int - x) % 0x1_0000_0000 == 0
    ensures MinInt <= x <= MaxInt ==> r as int == x
  {
    (((x + 0x8000_0000) % 0x1_0000_0000) - 0x8000_0000) as int32
  }

  /** Scaling both sides by `c` and adding `d` keeps two numbers congruent modulo 2^32. */
  lemma CongruentStep(a: int, b: int, c: int, d: int)
    requires (a - b) % 0x1_0000_0000 == 0
    ensures ((c * a + d) - (c * b + d)) % 0x1_0000_0000 == 0
  {
    var q := (a - b) / 0x1_0000_0000;
    assert a - b == 0x1_0000_0000 * q;
    assert (c * a + d) - (c * b + d) == 0x1_0000_0000 * (c * q);
  }

  /** Congruence modulo 2^32 is transitive. */
  lemma CongruentTrans(a: int, b: int, c: int)
    requires (a - b) % 0x1_0000_0000 == 0 && (b - c) % 0x1_0000_0000 == 0
    ensures (a - c) % 0x1_0000_0000 == 0
  {
    var p, q := (a - b) / 0x1_0000_0000, (b - c) / 0x1_0000_0000;
    assert a - c == 0x1_0000_0000 * (p + q);
  }

  /** Three wrapped steps of a 31-based hash agree modulo 2^32 with the exact polynomial they unroll to. */
  lemma HashChain(a: int, b: int, c: int, d: int, h1: int, h2: int, r: int)
    requires (h1 - (31 * a + b)) % 0x1_0000_0000 == 0
    requires (h2 - (31 * h1 + c)) % 0x1_0000_0000 == 0
    requires (r - (31 * h2 + d)) % 0x1_0000_0000 == 0
    ensures (r - (29791 * a + 961 * b + 31 * c + d)) % 0x1_0000_0000 == 0
  {
    var e1 := 31 * a + b;
    var e2 := 31 * e1 + c;
    CongruentStep(h1, e1, 31, c);
    CongruentTrans(h2, 31 * h1 + c, e2);
    CongruentStep(h2, e2, 31, d);
    CongruentTrans(r, 31 * h2 + d, 31 * e2 + d);
  }

  /** Java's `31 * (31 * (31 * a + b) + c) + d` in 32-bit arithmetic: it agrees modulo 2^32 with the exact polynomial. */
  function Hash31(a: int, b: int, c: int, d: int): (r: int32)
    ensures (r as int - (29791 * a + 961 * b + 31 * c + d)) % 0x1_0000_0000 == 0
  {
    var h1 := Wrap32(31 * a + b);
    var h2 := Wrap32(31 * h1 as int + c);
    var r := Wrap32(31 * h2 as int + d);
    HashChain(a, b, c, d, h1 as int, h2 as int, r as int);
    r
  }
}

=== FILE: playlist.dfy ===
/**
 * The playlist object and the in-place updates both services apply to it:
 * inserting a batch of new entries, removing entries by position, and the
 * renumbering loop that restores contiguous positions afterwards.
 *
 * The playlist's entries are a hash set in the source; the model keeps them
 * as a sequence in `compareTo` order (ascending index). Under `Valid()` the
 * indices are 0..n-1 in sequence order, so the sorts the source performs
 * (`Collections.sort`, `new TreeSet`) leave this sequence as it is.
 */
module Playlists {
  import opened JavaInt
  import opened Wrappers
  import opened TrackData
  import opened PlaylistTracks
  import opened Positions

  /** The values currently held by a sequence of entry objects. */
  function Views(s: seq<PlaylistTrack>): (r: seq<Entry>)
    reads s
    ensures |r| == |s| && forall k :: 0 <= k < |s| ==> r[k] == s[k].View()
  {
    seq(|s|, k reads s requires 0 <= k < |s| => s[k].View())
  }

  /** Reading the values of a spliced sequence splices their values. */
  lemma ViewsOfInserted(s: seq<PlaylistTrack>, at: int, added: seq<PlaylistTrack>)
    requires 0 <= at <= |s|
    ensures Views(s[..at] + added + s[at..]) == Inserted(Views(s), at, Views(added))
  {
    var r := s[..at] + added + s[at..];
    forall k | 0 <= k < |r| ensures Views(r)[k] == Inserted(Views(s), at, Views(added))[k] {
      if k < at {
        assert r[k] == s[k];
      } else if k < at + |added| {
        assert r[k] == added[k - at];
      } else {
        assert r[k] == s[k - |added|];
      }
    }
  }

  /** Reading the values of a slice slices their values. */
  lemma ViewsOfSlice(s: seq<PlaylistTrack>, lo: int, hi: int)
    requires 0 <= lo <= hi <= |s|
    ensures Views(s[lo..hi]) == Views(s)[lo..hi]
  {
  }

  /** The k-th entry object of `added` sits at position `at + k` and carries the k-th track of `ts`. */
  ghost predicate Landed(added: seq<PlaylistTrack>, at: int, ts: seq<Track>)
    reads added
  {
    |added| == |ts| && forall k :: 0 <= k < |added| ==> added[k].index as int == at + k && added[k].track == Some(ts[k])
  }

  /** After an add, the new entry objects have landed one after another from `at`. */
  lemma AddedLanded(s: seq<PlaylistTrack>, added: seq<PlaylistTrack>, before: seq<Entry>, at: int, ts: seq<Track>, now: Date)
    requires 0 <= at <= |before| && Views(s) == Renumbered(Inserted(before, at, NewEntries(ts, now)))
    requires added == s[at..at + |ts|]
    ensures Landed(added, at, ts)
  {
    ViewsOfSlice(s, at, at + |ts|);
    BatchLanded(before, at, ts, now);
    forall k | 0 <= k < |added| ensures added[k].View() == Views(s)[at + k] {
    }
  }

  /** No object occurs twice. */
  ghost predicate Distinct(s: seq<PlaylistTrack>) {
    forall i, j :: 0 <= i < j < |s| ==> s[i] != s[j]
  }

  /** Splicing new objects into a sequence of other objects keeps every object distinct. */
  lemma DistinctSplice(s: seq<PlaylistTrack>, at: int, added: seq<PlaylistTrack>)
    requires 0 <= at <= |s| && Distinct(s) && Distinct(added)
    requires forall k :: 0 <= k < |added| ==> added[k] !in s
    ensures Distinct(s[..at] + added + s[at..])
  {
    var r := s[..at] + added + s[at..];
    forall p, q | 0 <= p < q < |r| ensures r[p] != r[q] {
      if p < at || p >= at + |added| {
        assert r[p] in s;
      }
      if q < at || q >= at + |added| {
        assert r[q] in s;
      }
      if at + |added| <= p {
        assert r[p] == s[p - |added|] && r[q] == s[q - |added|];
      }
    }
  }

  /** Every object of a spliced sequence comes from one of its two parts. */
  lemma SpliceMembers(s: seq<PlaylistTrack>, at: int, added: seq<PlaylistTrack>)
    requires 0 <= at <= |s|
    ensures forall o :: o in s[..at] + added + s[at..] ==> o in s || o in added
  {
    forall o | o in s[..at] + added + s[at..] ensures o in s || o in added {
      var r := s[..at] + added + s[at..];
      var k :| 0 <= k < |r| && r[k] == o;
      if k < at {
        assert r[k] == s[k];
      } else if k >= at + |added| {
        assert r[k] == s[k - |added|];
      } else {
        assert r[k] == added[k - at];
      }
    }
  }

  /** Entries with strictly increasing indices are distinct objects. */
  lemma IncreasingDistinct(s: seq<PlaylistTrack>)
    requires Increasing(Views(s))
    ensures Distinct(s)
  {
    forall i, j | 0 <= i < j < |s| ensures s[i] != s[j] {
      assert Views(s)[i].index < Views(s)[j].index;
    }
  }

  /** `addTrackDurationToPlaylist`: the running total plus the track's duration; a null total or track counts as 0. */
  function AddTrackDuration(duration: Option<int>, track: Option<Track>): (r: int)
    ensures duration.None? ==> r == TrackDuration(track)
    ensures duration.Some? ==> r == duration.value + TrackDuration(track)
  {
    TrackDuration(track) + duration.GetOr(0)
  }

  /** `removeTrackDurationFromPlaylist`: the running total minus the track's duration; a null total or track counts as 0. */
  function RemoveTrackDuration(duration: Option<int>, track: Option<Track>): (r: int)
    ensures duration.None? ==> r == -TrackDuration(track)
    ensures duration.Some? ==> r == duration.value - TrackDuration(track)
  {
    duration.GetOr(0) - TrackDuration(track)
  }

  /** The running total after adding a batch: untouched (possibly null) for an empty batch, otherwise set. */
  function AfterAdding(duration: Option<int>, ts: seq<Track>): (r: Option<int>)
    ensures r.GetOr(0) == duration.GetOr(0) + TrackTotal(ts)
    ensures r.None? <==> duration.None? && ts == []
  {
    if ts == [] then duration else Some(duration.GetOr(0) + TrackTotal(ts))
  }

  /** The running total after removing some entries: untouched (possibly null) when none go, otherwise set. */
  function AfterRemoving(duration: Option<int>, gone: seq<Entry>): (r: Option<int>)
    ensures r.GetOr(0) == duration.GetOr(0) - TotalDuration(gone)
    ensures r.None? <==> duration.None? && gone == []
  {
    if gone == [] then duration else Some(duration.GetOr(0) - TotalDuration(gone))
  }

  /** The stream filter of `removeTracks`: the entries whose index is requested, in order. */
  function Matching(s: seq<PlaylistTrack>, requested: seq<int>): (r: seq<PlaylistTrack>)
    reads s
    ensures Views(r) == Dropped(Views(s), requested)
    ensures forall k :: 0 <= k < |r| ==> r[k] in s && r[k].index as int in requested
    ensures forall k :: 0 <= k < |s| && s[k].index as int in requested ==> s[k] in r
  {
    if s == [] then []
    else
      var last := s[|s| - 1];
      assert Views(s[..|s| - 1]) == Views(s)[..|s| - 1];
      Matching(s[..|s| - 1], requested) + (if last.index as int in requested then [last] else [])
  }

  /** What is left of `s` after removing each object of `gone`. */
  function Without(s: seq<PlaylistTrack>, gone: seq<PlaylistTrack>): (r: seq<PlaylistTrack>)
    ensures |r| <= |s|
  {
    if s == [] then []
    else
      var last := s[|s| - 1];
      Without(s[..|s| - 1], gone) + (if last in gone then [] else [last])
  }

  /** Removing objects one at a time removes them all. */
  lemma {:induction false} WithoutSnoc(s: seq<PlaylistTrack>, gone: seq<PlaylistTrack>, t: PlaylistTrack)
    ensures Without(s, gone + [t]) == Without(Without(s, gone), [t])
  {
    if s != [] {
      var init := s[..|s| - 1];
      WithoutSnoc(init, gone, t);
      var w := Without(init, gone);
      var last := s[|s| - 1];
      var tail := if last in gone then [] else [last];
      WithoutConcat(w, tail, [t]);
    }
  }

  lemma {:induction false} WithoutConcat(a: seq<PlaylistTrack>, b: seq<PlaylistTrack>, gone: seq<PlaylistTrack>)
    ensures Without(a + b, gone) == Without(a, gone) + Without(b, gone)
  {
    if b == [] {
      assert a + b == a;
    } else {
      var init := b[..|b| - 1];
      assert (a + b)[..|a + b| - 1] == a + init;
      assert (a + b)[|a + b| - 1] == b[|b| - 1];
      WithoutConcat(a, init, gone);
    }
  }

  lemma WithoutNothing(s: seq<PlaylistTrack>)
    ensures Without(s, []) == s
  {
    if s != [] {
      WithoutNothing(s[..|s| - 1]);
    }
  }

  /** Removing exactly the objects whose index is requested leaves the entries the value-level removal keeps. */
  lemma {:induction false} WithoutByIndex(s: seq<PlaylistTrack>, gone: seq<PlaylistTrack>, requested: seq<int>)
    requires forall k :: 0 <= k < |s| ==> (s[k] in gone <==> s[k].index as int in requested)
    ensures Views(Without(s, gone)) == Kept(Views(s), requested)
    ensures forall t :: t in Without(s, gone) ==> t in s
  {
    if s != [] {
      var init := s[..|s| - 1];
      var last := s[|s| - 1];
      WithoutByIndex(init, gone, requested);
      assert Views(init) == Views(s)[..|s| - 1];
      var tail := if last in gone then [] else [last];
      assert Views(Without(init, gone) + tail) == Views(Without(init, gone)) + Views(tail);
    }
  }

  /** The renumbering loop: each entry's index becomes its position in `s`; nothing else changes. */
  method Renumber(s: seq<PlaylistTrack>)
    requires Distinct(s) && |s| <= MaxInt + 1
    modifies set t | t in s
    ensures Views(s) == Renumbered(old(Views(s)))
  {
    var k := 0;
    while k < |s|
      invariant 0 <= k <= |s|
      invariant forall j :: 0 <= j < k ==> s[j].View() == old(s[j].View()).(index := j)
      invariant forall j :: k <= j < |s| ==> s[j].View() == old(s[j].View())
    {
      s[k].SetIndex(k as int32);
      k := k + 1;
    }
  }

  class Playlist {
    /** The playlist's entries (a hash set in the source), in ascending index order. */
    var tracks: seq<PlaylistTrack>
    /** The cached count of entries. */
    var nrOfTracks: int32
    /** The cached running duration total; `None` is a null `Float`. */
    var duration: Option<int>

    /** The class invariant: the count is the number of entries and their indices are 0..n-1 in order. */
    ghost predicate Valid()
      reads this, tracks
    {
      nrOfTracks as int == |tracks| && Contiguous(Views(tracks))
    }

    /** The cached duration (null read as 0) is the sum of the entries' durations. */
    ghost predicate DurationConsistent()
      reads this, tracks
    {
      duration.GetOr(0) == TotalDuration(Views(tracks))
    }

    /** A new playlist: no entries, count 0, null duration. */
    constructor ()
      ensures Valid() && DurationConsistent()
      ensures tracks == [] && nrOfTracks == 0 && duration == None
    {
      tracks := [];
      nrOfTracks := 0;
      duration := None;
    }

    /**
     * The insertion loop of `addTracks`: one new entry per track, created in
     * caller order and inserted at consecutive slots from `at` into a copy of
     * the entries, each track's duration added to the running total.
     */
    method SpliceBatch(tracksToAdd: seq<Track>, at: int, now: Date) returns (original: seq<PlaylistTrack>, added: seq<PlaylistTrack>)
      requires 0 <= at <= |tracks|
      modifies this`duration
      ensures original == tracks[..at] + added + tracks[at..]
      ensures |added| == |tracksToAdd| && Distinct(added)
      ensures forall k :: 0 <= k < |added| ==> fresh(added[k]) && added[k] !in tracks
      ensures Views(added) == NewEntries(tracksToAdd, now)
      ensures duration == AfterAdding(old(duration), tracksToAdd)
    {
      original := tracks;
      added := [];
      var insertionIndex := at;
      var i := 0;
      while i < |tracksToAdd|
        invariant 0 <= i <= |tracksToAdd| && |added| == i && insertionIndex == at + i
        invariant original == tracks[..at] + added + tracks[at..]
        invariant forall k :: 0 <= k < i ==> fresh(added[k]) && added[k] !in tracks
        invariant Distinct(added)
        invariant Views(added) == NewEntries(tracksToAdd[..i], now)
        invariant duration == AfterAdding(old(duration), tracksToAdd[..i])
      {
        var track := tracksToAdd[i];
        var entry := new PlaylistTrack.Build(track, now);
        duration := Some(AddTrackDuration(duration, Some(track)));
        original := original[..insertionIndex] + [entry] + original[insertionIndex..];
        assert tracksToAdd[..i + 1][..i] == tracksToAdd[..i];
        added := added + [entry];
        insertionIndex := insertionIndex + 1;
        i := i + 1;
      }
      assert tracksToAdd[..i] == tracksToAdd;
    }

    /**
     * The update step of `addTracks`: insert the batch as one run at `at`,
     * then renumber every entry and store the count. Returns the new entries.
     */
    method InsertTracks(tracksToAdd: seq<Track>, at: int, now: Date) returns (added: seq<PlaylistTrack>)
      requires Valid()
      requires 0 <= at <= |tracks| && |tracks| + |tracksToAdd| <= MaxInt
      modifies this, set t | t in tracks
      ensures Valid()
      ensures tracks == old(tracks)[..at] + added + old(tracks)[at..]
      ensures Views(tracks) == Renumbered(Inserted(old(Views(tracks)), at, NewEntries(tracksToAdd, now)))
      ensures |added| == |tracksToAdd| && added == tracks[at..at + |tracksToAdd|]
      ensures forall k :: 0 <= k < |added| ==> fresh(added[k])
      ensures Landed(added, at, tracksToAdd)
      ensures duration == AfterAdding(old(duration), tracksToAdd)
      ensures old(DurationConsistent()) ==> DurationConsistent()
    {
      ghost var before := Views(tracks);
      var original;
      original, added := Splice(tracksToAdd, at, now);
      Commit(original, added, before, at, tracksToAdd, now);
    }

    /**
     * The renumbering and storing step of `addTracks`: the spliced copy is
     * renumbered and becomes the entries, with its count; the batch lands at
     * `at` onward and the total grows by exactly the batch's durations.
     */
    method Commit(original: seq<PlaylistTrack>, added: seq<PlaylistTrack>, ghost before: seq<Entry>, at: int, tracksToAdd: seq<Track>, now: Date)
      requires 0 <= at <= |before| && |before| + |tracksToAdd| <= MaxInt
      requires Distinct(original) && Views(original) == Inserted(before, at, NewEntries(tracksToAdd, now))
      requires |added| == |tracksToAdd| && original[at..at + |added|] == added
      modifies this, set t | t in original
      ensures Valid() && tracks == original && duration == old(duration)
      ensures added == tracks[at..at + |tracksToAdd|]
      ensures Views(tracks) == Renumbered(Inserted(before, at, NewEntries(tracksToAdd, now)))
      ensures Landed(added, at, tracksToAdd)
      ensures TotalDuration(Views(tracks)) == TotalDuration(before) + TrackTotal(tracksToAdd)
    {
      Renumber(original);
      tracks := original;
      nrOfTracks := |original| as int32;
      AddedLanded(tracks, added, before, at, tracksToAdd, now);
      AddDuration(before, at, tracksToAdd, now);
    }

    /**
     * The batch spliced into a copy of the entries at `at`, with the facts
     * the renumbering needs: the copy's values, its distinct objects, and
     * that each is an old entry or a new one.
     */
    method Splice(tracksToAdd: seq<Track>, at: int, now: Date) returns (original: seq<PlaylistTrack>, added: seq<PlaylistTrack>)
      requires Valid() && 0 <= at <= |tracks|
      modifies this`duration
      ensures original == tracks[..at] + added + tracks[at..]
      ensures Views(original) == Inserted(Views(tracks), at, NewEntries(tracksToAdd, now))
      ensures Distinct(original) && |original| == |tracks| + |tracksToAdd|
      ensures forall o :: o in original ==> o in tracks || fresh(o)
      ensures |added| == |tracksToAdd| && original[at..at + |added|] == added
      ensures forall k :: 0 <= k < |added| ==> fresh(added[k])
      ensures duration == AfterAdding(old(duration), tracksToAdd)
    {
      original, added := SpliceBatch(tracksToAdd, at, now);
      ViewsOfInserted(tracks, at, added);
      IncreasingDistinct(tracks);
      DistinctSplice(tracks, at, added);
      SpliceMembers(tracks, at, added);
      assert original[at..at + |added|] == added;
    }

    /** Renumber the given entries in their order and store them, with their count, as the playlist's entries. */
    method Install(s: seq<PlaylistTrack>, ghost values: seq<Entry>)
      requires Distinct(s) && |s| <= MaxInt && Views(s) == values
      modifies this, set t | t in s
      ensures Valid() && Views(tracks) == Renumbered(values)
      ensures TotalDuration(Views(tracks)) == TotalDuration(values)
      ensures tracks == s && duration == old(duration)
    {
      RenumberedDuration(values);
      Renumber(s);
      tracks := s;
      nrOfTracks := |s| as int32;
    }

    /**
     * The update step of `removeTracks`: drop every entry whose index is
     * requested, subtracting its duration, then renumber the survivors in
     * their old order and store the count. Returns the survivors.
     */
    method RemoveAt(requested: seq<int>) returns (survivors: seq<PlaylistTrack>)
      requires Valid()
      modifies this, set t | t in tracks
      ensures Valid()
      ensures Views(tracks) == Renumbered(Kept(old(Views(tracks)), requested))
      ensures survivors == tracks && forall t :: t in tracks ==> t in old(tracks)
      ensures duration == AfterRemoving(old(duration), Dropped(old(Views(tracks)), requested))
      ensures old(DurationConsistent()) ==> DurationConsistent()
      ensures forall t :: t in old(tracks) && t !in tracks ==> unchanged(t)
    {
      ghost var before := Views(tracks);
      ghost var kept := Kept(before, requested);
      survivors := Select(requested);
      Install(survivors, kept);
      if old(DurationConsistent()) {
        assert TotalDuration(kept) == TotalDuration(before) - TotalDuration(Dropped(before, requested)) by {
          DurationSplit(before, requested);
        }
      }
    }

    /**
     * The filter and removal loop of `removeTracks`: the entries whose index is
     * requested leave the playlist, their durations subtracted; the survivors
     * keep their old values and order, and so stay distinct.
     */
    method Select(requested: seq<int>) returns (survivors: seq<PlaylistTrack>)
      requires Increasing(Views(tracks)) && |tracks| <= MaxInt
      modifies this`tracks, this`duration
      ensures survivors == tracks && forall t :: t in tracks ==> t in old(tracks)
      ensures Views(tracks) == Kept(old(Views(tracks)), requested)
      ensures Distinct(tracks) && |tracks| <= MaxInt
      ensures duration == AfterRemoving(old(duration), Dropped(old(Views(tracks)), requested))
    {
      ghost var before := Views(tracks);
      var toRemove := Matching(tracks, requested);
      DropAll(toRemove, Dropped(before, requested));
      assert Views(tracks) == Kept(before, requested) && forall t :: t in tracks ==> t in old(tracks) by {
        WithoutByIndex(old(tracks), toRemove, requested);
      }
      // The survivors' indices are still strictly increasing, so a sort by index keeps them in place.
      assert Distinct(tracks) by {
        KeptIncreasing(before, requested);
        IncreasingDistinct(tracks);
      }
      survivors := tracks;
    }

    /** The removal loop of `removeTracks`: take each given entry out of the playlist and subtract its duration. */
    method DropAll(toRemove: seq<PlaylistTrack>, ghost gone: seq<Entry>)
      requires Views(toRemove) == gone
      modifies this`tracks, this`duration
      ensures tracks == Without(old(tracks), toRemove)
      ensures duration == AfterRemoving(old(duration), gone)
    {
      WithoutNothing(tracks);
      var k := 0;
      while k < |toRemove|
        invariant 0 <= k <= |toRemove|
        invariant tracks == Without(old(tracks), toRemove[..k])
        invariant duration == AfterRemoving(old(duration), gone[..k])
      {
        var removable := toRemove[k];
        WithoutSnoc(old(tracks), toRemove[..k], removable);
        assert toRemove[..k + 1] == toRemove[..k] + [removable];
        tracks := Without(tracks, [removable]);
        duration := Some(RemoveTrackDuration(duration, removable.track));
        assert gone[..k + 1][..k] == gone[..k] && gone[k] == removable.View();
        assert TotalDuration(gone[..k + 1]) == TotalDuration(gone[..k]) + TrackDuration(removable.track);
        k := k + 1;
      }
      assert toRemove[..k] == toRemove && gone[..k] == gone;
    }
  }
}

=== FILE: playlist_track.dfy ===
/**
 * A playlist entry (`PlaylistTrack`): a mutable object holding a track, its
 * position `index` within the playlist and its "added at" timestamp, ordered
 * by `index` and compared by its key fields.
 */
module PlaylistTracks {
  import opened JavaInt
  import opened Wrappers
  import opened TrackData

  /** A `java.util.Date`, reduced to its millisecond timestamp. */
  datatype Date = Date(time: int64)

  /** `Date.hashCode()`: the timestamp folded to 32 bits, `(int) (t ^ (t >>> 32))`. */
  function DateHash(d: Date): int32 {
    var b := ((d.time as int) % 0x1_0000_0000_0000_0000) as bv64;
    var low := (b ^ (b >> 32)) & 0xFFFF_FFFF;
    Wrap32(low as int)
  }

  /** The value held by a `PlaylistTrack` object at one moment (the back-reference to its playlist is not modelled). */
  datatype Entry = Entry(id: Option<int32>, index: int, dateAdded: Option<Date>, trackId: int32, track: Option<Track>)

  /** The duration a possibly null track contributes: a null track counts as 0. */
  function TrackDuration(track: Option<Track>): int {
    if track.Some? then track.value.duration else 0
  }

  /** `compareTo` on two indices: their difference, computed in 32-bit arithmetic. */
  function Compare(a: int32, b: int32): (r: int32)
    ensures MinInt <= a as int - b as int <= MaxInt ==>
      (r < 0 <==> a < b) && (r == 0 <==> a == b) && (r > 0 <==> a > b)
  {
    Wrap32(a as int - b as int)
  }

  function Sign(x: int32): int {
    if x < 0 then -1 else if x == 0 then 0 else 1
  }

  /** For non-negative indices, the only ones a playlist holds, swapping the arguments negates the sign. */
  lemma CompareAntisymmetric(a: int32, b: int32)
    requires 0 <= a && 0 <= b
    ensures Sign(Compare(a, b)) == -Sign(Compare(b, a))
  {
  }

  /** Outside that range the subtraction wraps: both orders of the minimum value and zero compare as "less". */
  lemma CompareOverflows()
    ensures Compare(MinInt as int32, 0) < 0 && Compare(0, MinInt as int32) < 0
    ensures Compare(MinInt as int32, 1) > 0
  {
  }

  class PlaylistTrack {
    var id: Option<int32>
    var index: int32
    var dateAdded: Option<Date>
    var trackId: int32
    var track: Option<Track>

    /** The no-argument constructor: it stamps the entry with the current date `now`. */
    constructor (now: Date)
      ensures dateAdded == Some(now)
      ensures id == None && index == 0 && trackId == 0 && track == None
    {
      id := None;
      index := 0;
      dateAdded := Some(now);
      trackId := 0;
      track := None;
    }

    /** The builder call both services use for a new entry: track, its id and the date set, index left at 0. */
    constructor Build(t: Track, now: Date)
      ensures View() == Entry(None, 0, Some(now), t.id, Some(t))
    {
      id := None;
      index := 0;
      dateAdded := Some(now);
      trackId := t.id;
      track := Some(t);
    }

    function View(): Entry
      reads this
    {
      Entry(id, index as int, dateAdded, trackId, track)
    }

    /** `setIndex`: only the index changes, and reading it back yields the value set. */
    method SetIndex(i: int32)
      modifies this`index
      ensures index == i
      ensures View() == old(View()).(index := i as int)
    {
      index := i;
    }

    /** `compareTo`: orders entries by index. */
    function CompareTo(o: PlaylistTrack): (r: int32)
      reads this, o
      ensures 0 <= index && 0 <= o.index ==>
        (r < 0 <==> index < o.index) && (r == 0 <==> index == o.index) && (r > 0 <==> index > o.index)
    {
      Compare(index, o.index)
    }

    /** `equals(Object)`: identity, else same class and same index, trackId, dateAdded and id. */
    predicate Equals(o: object?): (r: bool)
      reads this, o
      ensures this == o ==> r
      ensures r ==> o is PlaylistTrack && (o as PlaylistTrack).View() == View().(track := (o as PlaylistTrack).track)
      ensures o is PlaylistTrack && (o as PlaylistTrack).View() == View().(track := (o as PlaylistTrack).track) ==> r
    {
      if this == o then true
      else if o == null || !(o is PlaylistTrack) then false
      else
        var that := o as PlaylistTrack;
        index == that.index && trackId == that.trackId && dateAdded == that.dateAdded && id == that.id
    }

    /**
     * `hashCode()`: 31-based polynomial over id, index, dateAdded and
     * trackId, in 32-bit arithmetic; it agrees modulo 2^32 with the exact
     * polynomial 31^3 id + 31^2 index + 31 dateHash + trackId, where a null
     * id or dateAdded counts as 0.
     */
    function HashCode(): (r: int32)
      reads this
      ensures (r as int - (29791 * IdHash() + 961 * index as int + 31 * DateAddedHash() + trackId as int)) % 0x1_0000_0000 == 0
    {
      Hash31(IdHash(), index as int, DateAddedHash(), trackId as int)
    }

    /** `id.hashCode()`, or 0 for a null id. */
    function IdHash(): int
      reads this
    {
      if id.Some? then id.value as int else 0
    }

    /** `dateAdded.hashCode()`, or 0 for a null date. */
    function DateAddedHash(): int
      reads this
    {
      if dateAdded.Some? then DateHash(dateAdded.value) as int else 0
    }
  }

  /** Two entries are equal exactly when their four key fields agree; the track itself is not compared. */
  lemma EqualsIffKeyFields(a: PlaylistTrack, b: PlaylistTrack)
    ensures a.Equals(b) <==>
      a.index == b.index && a.trackId == b.trackId && a.dateAdded == b.dateAdded && a.id == b.id
  {
  }

  /** So re-indexing one of two equal entries makes them unequal. */
  lemma EqualsDependsOnIndex(a: PlaylistTrack, b: PlaylistTrack)
    requires a.index != b.index
    ensures !a.Equals(b)
  {
  }

  lemma HashCodeConsistentWithEquals(a: PlaylistTrack, b: PlaylistTrack)
    requires a.Equals(b)
    ensures a.HashCode() == b.HashCode()
  {
  }
}

=== FILE: positions.dfy ===
/**
 * The value-level specification of a playlist's entries: contiguous
 * positions, renumbering, batch insertion, removal by position and the
 * duration total, with the lemmas that relate them.
 */
module Positions {
  import opened Wrappers
  import opened TrackData
  import opened PlaylistTracks

  /** Positions are exactly 0..|s|-1, in sequence order: the playlist's central invariant. */
  ghost predicate Contiguous(s: seq<Entry>) {
    forall k :: 0 <= k < |s| ==> s[k].index == k
  }

  /** Strictly increasing positions: the order a sort by `compareTo` yields, with no two entries comparing equal. */
  ghost predicate Increasing(s: seq<Entry>) {
    forall i, j :: 0 <= i < j < |s| ==> s[i].index < s[j].index
  }

  /** `a` is `b` with possibly another position. */
  predicate SameButIndex(a: Entry, b: Entry) {
    a.(index := 0) == b.(index := 0)
  }

  /** The renumbering loop: every entry gets its sequence position as index, nothing else changes. */
  function Renumbered(s: seq<Entry>): (r: seq<Entry>)
    ensures |r| == |s| && Contiguous(r)
    ensures forall k :: 0 <= k < |s| ==> SameButIndex(r[k], s[k])
  {
    seq(|s|, k requires 0 <= k < |s| => s[k].(index := k))
  }

  /** The entries a batch of tracks becomes: no id, index 0, stamped with `now`. */
  function NewEntries(ts: seq<Track>, now: Date): (r: seq<Entry>)
    ensures |r| == |ts|
    ensures forall k :: 0 <= k < |ts| ==> r[k].track == Some(ts[k]) && r[k].trackId == ts[k].id
  {
    seq(|ts|, k requires 0 <= k < |ts| => Entry(None, 0, Some(now), ts[k].id, Some(ts[k])))
  }

  /** Inserting a batch one element at a time at consecutive slots from `at`: one contiguous run in caller order. */
  function Inserted(s: seq<Entry>, at: int, batch: seq<Entry>): (r: seq<Entry>)
    requires 0 <= at <= |s|
    ensures |r| == |s| + |batch|
  {
    s[..at] + batch + s[at..]
  }

  /** The entries whose position is not among the requested ones, in their order. */
  function Kept(s: seq<Entry>, requested: seq<int>): (r: seq<Entry>)
    ensures |r| <= |s|
  {
    if s == [] then []
    else
      var last := s[|s| - 1];
      Kept(s[..|s| - 1], requested) + (if last.index in requested then [] else [last])
  }

  /** The entries whose position is requested, in their order. */
  function Dropped(s: seq<Entry>, requested: seq<int>): (r: seq<Entry>)
    ensures |r| <= |s|
  {
    if s == [] then []
    else
      var last := s[|s| - 1];
      Dropped(s[..|s| - 1], requested) + (if last.index in requested then [last] else [])
  }

  /** The exact sum of the entries' durations. */
  function TotalDuration(s: seq<Entry>): int {
    if s == [] then 0 else TotalDuration(s[..|s| - 1]) + TrackDuration(s[|s| - 1].track)
  }

  /** The exact sum of the tracks' durations. */
  function TrackTotal(ts: seq<Track>): int {
    if ts == [] then 0 else TrackTotal(ts[..|ts| - 1]) + ts[|ts| - 1].duration
  }

  /** Exactly the entries whose position is requested are gone; every other entry survives. */
  lemma {:induction false} KeptMembership(s: seq<Entry>, requested: seq<int>)
    ensures forall e :: e in Kept(s, requested) <==> e in s && e.index !in requested
    ensures forall e :: e in Dropped(s, requested) <==> e in s && e.index in requested
  {
    if s != [] {
      var init := s[..|s| - 1];
      KeptMembership(init, requested);
      assert s == init + [s[|s| - 1]];
    }
  }

  /** Every position is either kept or dropped. */
  lemma {:induction false} KeptDroppedPartition(s: seq<Entry>, requested: seq<int>)
    ensures |Kept(s, requested)| + |Dropped(s, requested)| == |s|
    ensures multiset(Kept(s, requested)) + multiset(Dropped(s, requested)) == multiset(s)
  {
    if s != [] {
      var init, last := s[..|s| - 1], s[|s| - 1];
      var k, d := Kept(init, requested), Dropped(init, requested);
      KeptDroppedPartition(init, requested);
      assert multiset(s) == multiset(init) + multiset{last} by {
        assert s == init + [last];
      }
      if last.index in requested {
        assert multiset(Dropped(s, requested)) == multiset(d) + multiset{last} by {
          assert Dropped(s, requested) == d + [last];
        }
      } else {
        assert multiset(Kept(s, requested)) == multiset(k) + multiset{last} by {
          assert Kept(s, requested) == k + [last];
        }
      }
    }
  }

  lemma {:induction false} TotalDurationConcat(a: seq<Entry>, b: seq<Entry>)
    ensures TotalDuration(a + b) == TotalDuration(a) + TotalDuration(b)
  {
    if b == [] {
      assert a + b == a;
    } else {
      var init := b[..|b| - 1];
      assert (a + b)[..|a + b| - 1] == a + init;
      assert (a + b)[|a + b| - 1] == b[|b| - 1];
      TotalDurationConcat(a, init);
    }
  }

  /** Removal conserves duration: what is kept and what is dropped add up to the whole. */
  lemma {:induction false} DurationSplit(s: seq<Entry>, requested: seq<int>)
    ensures TotalDuration(s) == TotalDuration(Kept(s, requested)) + TotalDuration(Dropped(s, requested))
  {
    if s != [] {
      var init := s[..|s| - 1];
      var last := s[|s| - 1];
      DurationSplit(init, requested);
      TotalDurationConcat(Kept(init, requested), if last.index in requested then [] else [last]);
      TotalDurationConcat(Dropped(init, requested), if last.index in requested then [last] else []);
    }
  }

  /** Renumbering touches positions only, so the duration total is unchanged. */
  lemma {:induction false} RenumberedDuration(s: seq<Entry>)
    ensures TotalDuration(Renumbered(s)) == TotalDuration(s)
  {
    if s != [] {
      var init := s[..|s| - 1];
      assert Renumbered(s)[..|s| - 1] == Renumbered(init);
      RenumberedDuration(init);
    }
  }

  /** A batch of new entries carries exactly the durations of its tracks. */
  lemma {:induction false} NewEntriesDuration(ts: seq<Track>, now: Date)
    ensures TotalDuration(NewEntries(ts, now)) == TrackTotal(ts)
  {
    if ts != [] {
      var init := ts[..|ts| - 1];
      assert NewEntries(ts, now)[..|ts| - 1] == NewEntries(init, now);
      NewEntriesDuration(init, now);
    }
  }

  /** Splicing a batch in adds exactly the batch's total. */
  lemma InsertedDuration(s: seq<Entry>, at: int, batch: seq<Entry>)
    requires 0 <= at <= |s|
    ensures TotalDuration(Inserted(s, at, batch)) == TotalDuration(s) + TotalDuration(batch)
  {
    var front, back := s[..at], s[at..];
    assert TotalDuration(front + batch + back) == TotalDuration(front) + TotalDuration(batch) + TotalDuration(back) by {
      TotalDurationConcat(front + batch, back);
      TotalDurationConcat(front, batch);
    }
    assert TotalDuration(s) == TotalDuration(front) + TotalDuration(back) by {
      TotalDurationConcat(front, back);
      assert front + back == s;
    }
  }

  /** Adding a batch raises the duration total by exactly the batch's track durations. */
  lemma AddDuration(s: seq<Entry>, at: int, ts: seq<Track>, now: Date)
    requires 0 <= at <= |s|
    ensures TotalDuration(Renumbered(Inserted(s, at, NewEntries(ts, now)))) == TotalDuration(s) + TrackTotal(ts)
  {
    var batch := NewEntries(ts, now);
    RenumberedDuration(Inserted(s, at, batch));
    InsertedDuration(s, at, batch);
    NewEntriesDuration(ts, now);
  }

  /**
   * Where everything lands after an add: entries before the insertion point
   * keep their positions, the k-th new entry sits at `at + k`, and the later
   * old entries move up by the batch size, in their old order.
   */
  lemma InsertedLayout(s: seq<Entry>, at: int, batch: seq<Entry>)
    requires Contiguous(s) && 0 <= at <= |s|
    ensures var r := Renumbered(Inserted(s, at, batch));
      && r[..at] == s[..at]
      && (forall k :: 0 <= k < |batch| ==> r[at + k] == batch[k].(index := at + k))
      && (forall j :: at <= j < |s| ==> r[j + |batch|] == s[j].(index := j + |batch|))
  {
    var ins := Inserted(s, at, batch);
    var r := Renumbered(ins);
    forall k | 0 <= k < at ensures r[k] == s[k] {
      assert ins[k] == s[k];
    }
    forall k | 0 <= k < |batch| ensures r[at + k] == batch[k].(index := at + k) {
      assert ins[at + k] == batch[k];
    }
    forall j | at <= j < |s| ensures r[j + |batch|] == s[j].(index := j + |batch|) {
      assert ins[j + |batch|] == s[j];
    }
  }

  /** After an add, the k-th track of the batch sits at position `at + k`. */
  lemma BatchLanded(s: seq<Entry>, at: int, ts: seq<Track>, now: Date)
    requires 0 <= at <= |s|
    ensures var landed := Renumbered(Inserted(s, at, NewEntries(ts, now)))[at..at + |ts|];
      forall k :: 0 <= k < |ts| ==> landed[k].index == at + k && landed[k].track == Some(ts[k])
  {
    var batch := NewEntries(ts, now);
    var r := Renumbered(Inserted(s, at, batch));
    forall k | 0 <= k < |ts| ensures r[at + k] == batch[k].(index := at + k) {
      assert Inserted(s, at, batch)[at + k] == batch[k];
    }
  }

  lemma {:induction false} KeptConcat(a: seq<Entry>, b: seq<Entry>, requested: seq<int>)
    ensures Kept(a + b, requested) == Kept(a, requested) + Kept(b, requested)
  {
    if b == [] {
      assert a + b == a;
    } else {
      var init := b[..|b| - 1];
      assert (a + b)[..|a + b| - 1] == a + init;
      assert (a + b)[|a + b| - 1] == b[|b| - 1];
      KeptConcat(a, init, requested);
    }
  }

  lemma {:induction false} KeptNoneRequested(s: seq<Entry>, requested: seq<int>)
    requires forall k :: 0 <= k < |s| ==> s[k].index !in requested
    ensures Kept(s, requested) == s
  {
    if s != [] {
      KeptNoneRequested(s[..|s| - 1], requested);
    }
  }

  lemma {:induction false} KeptAllRequested(s: seq<Entry>, requested: seq<int>)
    requires forall k :: 0 <= k < |s| ==> s[k].index in requested
    ensures Kept(s, requested) == []
  {
    if s != [] {
      KeptAllRequested(s[..|s| - 1], requested);
    }
  }

  /** A requested position that no entry holds changes nothing. */
  lemma {:induction false} KeptIgnoresUnmatched(s: seq<Entry>, requested: seq<int>, x: int)
    requires forall k :: 0 <= k < |s| ==> s[k].index != x
    ensures Kept(s, requested + [x]) == Kept(s, requested)
    ensures Dropped(s, requested + [x]) == Dropped(s, requested)
  {
    if s != [] {
      KeptIgnoresUnmatched(s[..|s| - 1], requested, x);
    }
  }

  /** The count itself passes the bound check of a removal but names no entry, so requesting it removes nothing more. */
  lemma CountRequestMatchesNothing(s: seq<Entry>, requested: seq<int>)
    requires Contiguous(s)
    ensures Kept(s, requested + [|s|]) == Kept(s, requested)
    ensures Dropped(s, requested + [|s|]) == Dropped(s, requested)
  {
    KeptIgnoresUnmatched(s, requested, |s|);
  }

  /** Removal keeps the survivors in their prior order. */
  lemma {:induction false} KeptIncreasing(s: seq<Entry>, requested: seq<int>)
    requires Increasing(s)
    ensures Increasing(Kept(s, requested))
  {
    if s != [] {
      var init := s[..|s| - 1];
      KeptIncreasing(init, requested);
      KeptMembership(init, requested);
      var k := Kept(init, requested);
      forall i | 0 <= i < |k| ensures k[i].index < s[|s| - 1].index {
        assert k[i] in init;
      }
    }
  }

  /** The positions `lo`, `lo + 1`, ..., `hi - 1`. */
  function Range(lo: int, hi: int): (r: seq<int>)
    requires lo <= hi
    ensures forall i :: i in r <==> lo <= i < hi
    decreases hi - lo
  {
    if lo == hi then [] else Range(lo, hi - 1) + [hi - 1]
  }

  /** Asking for exactly the middle part's positions keeps the outer parts. */
  lemma KeptMiddleRemoved(front: seq<Entry>, block: seq<Entry>, back: seq<Entry>, requested: seq<int>)
    requires Kept(front, requested) == front && Kept(block, requested) == []
    requires Kept(back, requested) == back
    ensures Kept(front + block + back, requested) == front + back
  {
    assert Kept(front + block, requested) == front by {
      KeptConcat(front, block, requested);
      assert front + [] == front;
    }
    KeptConcat(front + block, back, requested);
  }

  /** The old entries before the insertion point are not among the batch's positions. */
  lemma FrontKept(s: seq<Entry>, at: int, batch: seq<Entry>)
    requires Contiguous(s) && 0 <= at <= |s|
    ensures var r := Renumbered(Inserted(s, at, batch));
      Kept(r[..at], Range(at, at + |batch|)) == r[..at]
  {
    var r := Renumbered(Inserted(s, at, batch));
    var front := r[..at];
    forall k | 0 <= k < |front| ensures front[k].index !in Range(at, at + |batch|) {
      assert front[k] == r[k];
    }
    KeptNoneRequested(front, Range(at, at + |batch|));
  }

  /** The batch's own positions are all requested. */
  lemma BlockDropped(s: seq<Entry>, at: int, batch: seq<Entry>)
    requires Contiguous(s) && 0 <= at <= |s|
    ensures var r := Renumbered(Inserted(s, at, batch));
      Kept(r[at..at + |batch|], Range(at, at + |batch|)) == []
  {
    var r := Renumbered(Inserted(s, at, batch));
    var block := r[at..at + |batch|];
    forall k | 0 <= k < |block| ensures block[k].index in Range(at, at + |batch|) {
      assert block[k] == r[at + k];
    }
    KeptAllRequested(block, Range(at, at + |batch|));
  }

  /** The old entries after the batch have moved past its positions. */
  lemma BackKept(s: seq<Entry>, at: int, batch: seq<Entry>)
    requires Contiguous(s) && 0 <= at <= |s|
    ensures var r := Renumbered(Inserted(s, at, batch));
      Kept(r[at + |batch|..], Range(at, at + |batch|)) == r[at + |batch|..]
  {
    var r := Renumbered(Inserted(s, at, batch));
    var back := r[at + |batch|..];
    forall k | 0 <= k < |back| ensures back[k].index !in Range(at, at + |batch|) {
      assert back[k] == r[at + |batch| + k];
    }
    KeptNoneRequested(back, Range(at, at + |batch|));
  }

  /** After an add, asking to remove the batch's positions keeps exactly the old entries. */
  lemma KeptAfterInsert(s: seq<Entry>, at: int, batch: seq<Entry>)
    requires Contiguous(s) && 0 <= at <= |s|
    ensures var r := Renumbered(Inserted(s, at, batch));
      Kept(r, Range(at, at + |batch|)) == r[..at] + r[at + |batch|..]
  {
    var r := Renumbered(Inserted(s, at, batch));
    var n := |batch|;
    var front, block, back := r[..at], r[at..at + n], r[at + n..];
    assert front + block == r[..at + n];
    assert r == front + block + back;
    FrontKept(s, at, batch);
    BlockDropped(s, at, batch);
    BackKept(s, at, batch);
    KeptMiddleRemoved(front, block, back, Range(at, at + n));
  }

  /** Removing the positions a batch was just added at gives back the playlist as it was. */
  lemma AddThenRemoveRestores(s: seq<Entry>, at: int, batch: seq<Entry>)
    requires Contiguous(s) && 0 <= at <= |s|
    ensures Renumbered(Kept(Renumbered(Inserted(s, at, batch)), Range(at, at + |batch|))) == s
  {
    var r := Renumbered(Inserted(s, at, batch));
    var n := |batch|;
    KeptAfterInsert(s, at, batch);
    var kept := r[..at] + r[at + n..];
    assert |kept| == |s|;
    forall k | 0 <= k < |s| ensures Renumbered(kept)[k] == s[k] {
      if k < at {
        assert kept[k] == r[k];
      } else {
        assert kept[k] == r[k + n];
      }
    }
  }
}

=== FILE: service_impl.dfy ===
/**
 * `PlaylistServiceImpl`: add a batch of tracks at a position, and remove the
 * entries at a list of positions, after checking the arguments, the
 * playlist's existence, its capacity and the positions.
 *
 * The repository lookup is the input `lookup` (`None` when no playlist has
 * the uuid) and the clock reading that stamps new entries is the input `now`.
 */
module PlaylistServiceImpl {
  import opened JavaInt
  import opened Wrappers
  import opened TrackData
  import opened PlaylistTracks
  import opened Positions
  import opened Checks
  import opened Playlists
  import opened TreeSetCollapse

  /** The most entries a playlist may hold. */
  const PlaylistMaxSize := 500

  /** `isValidIndex`: a position of an existing entry, or the one just past the last. */
  predicate IsValidIndex(toIndex: int, length: int): (ok: bool)
    ensures ok ==> 0 <= length
    ensures 0 <= length ==> (ok <==> toIndex == length || 0 <= toIndex < length)
  {
    0 <= toIndex <= length
  }

  /** The count of the playlist found, if any. */
  function SizeOf(lookup: Option<Playlist>): Option<int>
    reads if lookup.Some? then {lookup.value} else {}
  {
    if lookup.Some? then Some(lookup.value.nrOfTracks as int) else None
  }

  /** The requested positions as the integers `List.contains` compares entry indices with. */
  function Ints(xs: seq<int32>): (r: seq<int>)
    ensures |r| == |xs| && forall k :: 0 <= k < |xs| ==> r[k] == xs[k] as int
  {
    seq(|xs|, k requires 0 <= k < |xs| => xs[k] as int)
  }

  /**
   * The checks of `addTracks`, in the order it makes them: the uuid and the
   * batch, then the lookup (`size` is the count of the playlist found), then
   * the capacity, then the clamped position. On success, the position the
   * batch goes to.
   */
  function CheckAdd(uuid: Option<string>, tracksToAdd: Option<seq<Track>>, insertionIndex: int, size: Option<int>): (r: Result<int, Error>)
    ensures IsBlank(uuid) || IsEmptyList(tracksToAdd) ==> r == Failure(Validation)
    ensures r == Failure(NotFound) <==> !IsBlank(uuid) && !IsEmptyList(tracksToAdd) && size.None?
    ensures r == Failure(CapacityExceeded) <==>
      !IsBlank(uuid) && !IsEmptyList(tracksToAdd) && size.Some? && size.value + |tracksToAdd.value| > PlaylistMaxSize
    ensures r.Success? ==> tracksToAdd.Some? && size.Some? && size.value + |tracksToAdd.value| <= PlaylistMaxSize
    ensures r.Success? ==> 0 <= r.value <= size.value
    ensures r.Success? && insertionIndex != -1 && insertionIndex <= size.value ==> r.value == insertionIndex
    ensures r.Success? && (insertionIndex == -1 || insertionIndex > size.value) ==> r.value == size.value
    ensures r == Failure(Validation) ==> IsBlank(uuid) || IsEmptyList(tracksToAdd)
    ensures r == Failure(IndexOutOfBounds) <==>
      !IsBlank(uuid) && !IsEmptyList(tracksToAdd) && size.Some? && size.value + |tracksToAdd.value| <= PlaylistMaxSize
      && (insertionIndex < -1 || size.value < 0)
    ensures !IsBlank(uuid) && !IsEmptyList(tracksToAdd) && size.Some? && 0 <= size.value
      && size.value + |tracksToAdd.value| <= PlaylistMaxSize
      ==> (r.Success? <==> -1 <= insertionIndex)
  {
    if IsBlank(uuid) || IsEmptyList(tracksToAdd) then Failure(Validation)
    else if size.None? then Failure(NotFound)
    else if size.value + |tracksToAdd.value| > PlaylistMaxSize then Failure(CapacityExceeded)
    else
      var at := if insertionIndex > size.value || insertionIndex == -1 then size.value else insertionIndex;
      if !IsValidIndex(at, size.value) then Failure(IndexOutOfBounds)
      else Success(at)
  }

  /**
   * The checks of `removeTracks`, in the order it makes them: the uuid and
   * the positions, then the lookup, then every position against 0..count.
   * `None` when all pass.
   */
  function CheckRemove(uuid: Option<string>, indexes: Option<seq<int32>>, size: Option<int>): (r: Option<Error>)
    ensures IsBlank(uuid) || IsEmptyList(indexes) ==> r == Some(Validation)
    ensures r == Some(NotFound) <==> !IsBlank(uuid) && !IsEmptyList(indexes) && size.None?
    ensures r == Some(IndexOutOfBounds) <==>
      !IsBlank(uuid) && !IsEmptyList(indexes) && size.Some?
      && exists k :: 0 <= k < |indexes.value| && !(0 <= indexes.value[k] as int <= size.value)
    ensures r.None? <==>
      !IsBlank(uuid) && !IsEmptyList(indexes) && size.Some?
      && forall k :: 0 <= k < |indexes.value| ==> 0 <= indexes.value[k] as int <= size.value
  {
    if IsBlank(uuid) || IsEmptyList(indexes) then Some(Validation)
    else if size.None? then Some(NotFound)
    else if exists k :: 0 <= k < |indexes.value| && !IsValidIndex(indexes.value[k] as int, size.value) then Some(IndexOutOfBounds)
    else None
  }

  /**
   * `addTracks`: on success the batch sits as one run, in caller order, at
   * the checked position, every entry is renumbered, and the new entries
   * are returned; on failure nothing changes.
   */
  method AddTracks(uuid: Option<string>, tracksToAdd: Option<seq<Track>>, insertionIndex: int32, lookup: Option<Playlist>, now: Date)
    returns (r: Result<seq<PlaylistTrack>, Error>)
    requires lookup.Some? ==> lookup.value.Valid()
    requires tracksToAdd.Some? ==> |tracksToAdd.value| <= MaxInt
    modifies if lookup.Some? then {lookup.value} else {}
    modifies if lookup.Some? then set t | t in lookup.value.tracks else {}
    ensures lookup.Some? ==> lookup.value.Valid()
    ensures var c := CheckAdd(uuid, tracksToAdd, insertionIndex as int, old(SizeOf(lookup)));
      && (c.Failure? ==> r == Failure(c.error))
      && (c.Failure? && lookup.Some? ==> unchanged(lookup.value) && Views(lookup.value.tracks) == old(Views(lookup.value.tracks)))
      && (c.Success? ==> r.Success?)
    ensures r.Success? ==>
      var at, ts, p := CheckAdd(uuid, tracksToAdd, insertionIndex as int, old(SizeOf(lookup))).value, tracksToAdd.value, lookup.value;
      && p.tracks == old(p.tracks)[..at] + r.value + old(p.tracks)[at..]
      && Views(p.tracks) == Renumbered(Inserted(old(Views(p.tracks)), at, NewEntries(ts, now)))
      && p.nrOfTracks as int == old(p.nrOfTracks) as int + |ts|
      && r.value == p.tracks[at..at + |ts|]
      && (forall k :: 0 <= k < |ts| ==> r.value[k].index as int == at + k && r.value[k].track == Some(ts[k]))
      && p.duration == AfterAdding(old(p.duration), ts)
      && (old(p.DurationConsistent()) ==> p.DurationConsistent())
  {
    var c := CheckAdd(uuid, tracksToAdd, insertionIndex as int, SizeOf(lookup));
    if c.Failure? {
      return Failure(c.error);
    }
    var p := lookup.value;
    var ts := tracksToAdd.value;
    var added := p.InsertTracks(ts, c.value, now);
    r := Success(added);
  }

  /**
   * `removeTracks`: on success exactly the entries at the requested
   * positions are gone, the survivors keep their order and are renumbered,
   * and they are returned; on failure nothing changes.
   */
  method RemoveTracks(uuid: Option<string>, indexes: Option<seq<int32>>, lookup: Option<Playlist>)
    returns (r: Result<seq<PlaylistTrack>, Error>)
    requires lookup.Some? ==> lookup.value.Valid()
    modifies if lookup.Some? then {lookup.value} else {}
    modifies if lookup.Some? then set t | t in lookup.value.tracks else {}
    ensures lookup.Some? ==> lookup.value.Valid()
    ensures var c := CheckRemove(uuid, indexes, old(SizeOf(lookup)));
      && (c.Some? ==> r == Failure(c.value))
      && (c.Some? && lookup.Some? ==> unchanged(lookup.value) && Views(lookup.value.tracks) == old(Views(lookup.value.tracks)))
      && (c.None? ==> r.Success?)
    ensures r.Success? ==>
      var requested, p := Ints(indexes.value), lookup.value;
      && Views(p.tracks) == Renumbered(Kept(old(Views(p.tracks)), requested))
      && p.nrOfTracks as int == |Kept(old(Views(p.tracks)), requested)|
      && RemoveAsWritten(old(Views(p.tracks)), requested) == Outcome(p.nrOfTracks as int, Views(p.tracks))
      && RemoveCorrected(old(Views(p.tracks)), requested) == Outcome(p.nrOfTracks as int, Views(p.tracks))
      && r.value == p.tracks
      && (forall t :: t in p.tracks ==> t in old(p.tracks))
      && (forall t :: t in old(p.tracks) && t !in p.tracks ==> unchanged(t))
      && p.duration == AfterRemoving(old(p.duration), Dropped(old(Views(p.tracks)), requested))
      && (old(p.DurationConsistent()) ==> p.DurationConsistent())
  {
    var c := CheckRemove(uuid, indexes, SizeOf(lookup));
    if c.Some? {
      return Failure(c.value);
    }
    var p := lookup.value;
    ghost var before := Views(p.tracks);
    AsWrittenAgreesOnDistinct(before, Ints(indexes.value));
    var survivors := p.RemoveAt(Ints(indexes.value));
    r := Success(survivors);
  }
}

=== FILE: service_legacy.dfy ===
/**
 * The older `PlaylistService`: the same add as `PlaylistServiceImpl` except
 * that the uuid check is `isEmpty` rather than `isBlank`, and a remove that
 * is a stub.
 */
module PlaylistService {
  import opened JavaInt
  import opened Wrappers
  import opened TrackData
  import opened PlaylistTracks
  import opened Positions
  import opened Checks
  import opened Playlists
  import Impl = PlaylistServiceImpl

  /** The most entries a playlist may hold. */
  const PlaylistMaxSize := 500

  /** `validateIndexes`: the same test as `isValidIndex` of the newer service. */
  predicate ValidateIndexes(toIndex: int, length: int): (ok: bool)
    ensures ok <==> Impl.IsValidIndex(toIndex, length)
  {
    0 <= toIndex <= length
  }

  /**
   * The checks of the legacy `addTracks`, in the order it makes them: an
   * empty uuid or batch, then the lookup, then the capacity, then the
   * clamped position. On success, the position the batch goes to.
   */
  function CheckAdd(uuid: Option<string>, tracksToAdd: Option<seq<Track>>, toIndex: int, size: Option<int>): (r: Result<int, Error>)
    ensures IsEmptyString(uuid) || IsEmptyList(tracksToAdd) ==> r == Failure(Validation)
    ensures r == Failure(Validation) ==> IsEmptyString(uuid) || IsEmptyList(tracksToAdd)
    ensures r == Failure(NotFound) <==> !IsEmptyString(uuid) && !IsEmptyList(tracksToAdd) && size.None?
    ensures r == Failure(CapacityExceeded) <==>
      !IsEmptyString(uuid) && !IsEmptyList(tracksToAdd) && size.Some? && size.value + |tracksToAdd.value| > PlaylistMaxSize
    ensures r.Success? ==> tracksToAdd.Some? && size.Some? && size.value + |tracksToAdd.value| <= PlaylistMaxSize
    ensures r.Success? ==> 0 <= r.value <= size.value
    ensures r.Success? && toIndex != -1 && toIndex <= size.value ==> r.value == toIndex
    ensures r.Success? && (toIndex == -1 || toIndex > size.value) ==> r.value == size.value
    ensures r == Failure(IndexOutOfBounds) <==>
      !IsEmptyString(uuid) && !IsEmptyList(tracksToAdd) && size.Some? && size.value + |tracksToAdd.value| <= PlaylistMaxSize
      && (toIndex < -1 || size.value < 0)
    ensures !IsEmptyString(uuid) && !IsEmptyList(tracksToAdd) && size.Some? && 0 <= size.value
      && size.value + |tracksToAdd.value| <= PlaylistMaxSize
      ==> (r.Success? <==> -1 <= toIndex)
  {
    if IsEmptyString(uuid) || IsEmptyList(tracksToAdd) then Failure(Validation)
    else if size.None? then Failure(NotFound)
    else if size.value + |tracksToAdd.value| > PlaylistMaxSize then Failure(CapacityExceeded)
    else
      var at := if toIndex > size.value || toIndex == -1 then size.value else toIndex;
      if !ValidateIndexes(at, size.value) then Failure(IndexOutOfBounds)
      else Success(at)
  }

  /**
   * The two services decide an add alike whenever the uuid is not blank; a
   * uuid of whitespace only is refused by the newer one and let through to
   * the lookup by the legacy one.
   */
  lemma AgreesWithImpl(uuid: Option<string>, tracksToAdd: Option<seq<Track>>, toIndex: int, size: Option<int>)
    ensures !IsBlank(uuid) ==> CheckAdd(uuid, tracksToAdd, toIndex, size) == Impl.CheckAdd(uuid, tracksToAdd, toIndex, size)
    ensures IsBlank(uuid) && !IsEmptyString(uuid) && !IsEmptyList(tracksToAdd) ==>
      && Impl.CheckAdd(uuid, tracksToAdd, toIndex, size) == Failure(Validation)
      && CheckAdd(uuid, tracksToAdd, toIndex, size) != Failure(Validation)
  {
    if !IsBlank(uuid) {
      assert !IsEmptyString(uuid);
    }
  }

  /**
   * The legacy `addTracks`: on success the batch sits as one run, in caller
   * order, at the checked position, every entry is renumbered, and the new
   * entries are returned; on failure nothing changes.
   */
  method AddTracks(uuid: Option<string>, tracksToAdd: Option<seq<Track>>, toIndex: int32, lookup: Option<Playlist>, now: Date)
    returns (r: Result<seq<PlaylistTrack>, Error>)
    requires lookup.Some? ==> lookup.value.Valid()
    requires tracksToAdd.Some? ==> |tracksToAdd.value| <= MaxInt
    modifies if lookup.Some? then {lookup.value} else {}
    modifies if lookup.Some? then set t | t in lookup.value.tracks else {}
    ensures lookup.Some? ==> lookup.value.Valid()
    ensures var c := CheckAdd(uuid, tracksToAdd, toIndex as int, old(Impl.SizeOf(lookup)));
      && (c.Failure? ==> r == Failure(c.error))
      && (c.Failure? && lookup.Some? ==> unchanged(lookup.value) && Views(lookup.value.tracks) == old(Views(lookup.value.tracks)))
      && (c.Success? ==> r.Success?)
    ensures r.Success? ==>
      var at, ts, p := CheckAdd(uuid, tracksToAdd, toIndex as int, old(Impl.SizeOf(lookup))).value, tracksToAdd.value, lookup.value;
      && p.tracks == old(p.tracks)[..at] + r.value + old(p.tracks)[at..]
      && Views(p.tracks) == Renumbered(Inserted(old(Views(p.tracks)), at, NewEntries(ts, now)))
      && p.nrOfTracks as int == old(p.nrOfTracks) as int + |ts|
      && r.value == p.tracks[at..at + |ts|]
      && (forall k :: 0 <= k < |ts| ==> r.value[k].index as int == at + k && r.value[k].track == Some(ts[k]))
      && p.duration == AfterAdding(old(p.duration), ts)
      && (old(p.DurationConsistent()) ==> p.DurationConsistent())
  {
    var c := CheckAdd(uuid, tracksToAdd, toIndex as int, Impl.SizeOf(lookup));
    if c.Failure? {
      return Failure(c.error);
    }
    var p := lookup.value;
    var ts := tracksToAdd.value;
    var added := p.InsertTracks(ts, c.value, now);
    r := Success(added);
  }

  /** The legacy `removeTracks` is a stub: whatever it is asked, it returns no entries and changes nothing. */
  function RemoveTracks(uuid: Option<string>, indexes: Option<seq<int32>>, lookup: Option<Playlist>): (r: seq<PlaylistTrack>)
    ensures r == []
  {
    []
  }
}

=== FILE: track.dfy ===
/** The track (item) referenced by a playlist entry: immutable input to the core. */
module TrackData {
  import opened JavaInt

  /** A track; `duration` is Java's `float`, modelled as an exact integer. */
  datatype Track = Track(id: int32, title: string, duration: int, artistId: int32)
}

=== FILE: wrappers.dfy ===
/** Option and Result values standing for Java's nullable references and thrown exceptions. */
module Wrappers {

  datatype Option<+T> = None | Some(value: T) {
    function GetOr(default: T): T {
      match this
      case Some(v) => v
      case None => default
    }
  }

  datatype Result<+R, +E> = Success(value: R) | Failure(error: E)
}
